=== FILE: README.md ===
# BrickPile trie maintenance, modelled in Dafny

BrickPile keeps a persistent tree of pages, the trie. It is one document with the fixed id `brickpile/trie`. Each `TrieNode` carries a `PageId`, a `ParentId`, a `Url` and its `Children`. The default bootstrapper keeps this tree in step with the content store through event handlers:

- `CreateDefaultDocuments` creates the empty trie at start-up unless it already exists.
- `OnPagePublish` sets the root, refreshes (and possibly moves) an existing node, or attaches a new child. It then deletes the page's `/draft` document.
- `OnPageSave` is the obsolete save path.
- `OnPageUnPublish` does nothing.
- `OnDocumentDelete` removes the page's node and its draft.

The model recasts every handler as a pure function. It maps the store it loads to the store it saves, together with the page metadata the handler writes (`Slug`, `Url`). The result type is `Result<…, Fault>`:

- `TrieNotLoaded` stands for the null dereference when the trie document is missing.
- `MoreThanOneMatch` stands for the exception `SingleOrDefault` throws on a second match.
- `PageRewriteFailed` stands for the null dereference in the rewrite of page URLs after a move. It happens when a page of the moved subtree does not load, or when `Trie.Get` does not find its node.

An exception means nothing is saved, so a failure leaves the store as it was.

Files:

- `basics.dfy`: `Option` (C# null and `??`) and `Result`.
- `text.dfy`: `String.Replace("/draft", "")`, `VirtualPathUtility.AppendTrailingSlash`, URL composition and case-insensitive comparison.
- `trie.dfy`: nodes, pre-order `Flatten`, `SingleOrDefault`, and the in-place node mutations. The mutations are `Children.Add` and `Url = …`, recast as a rewrite of the immutable tree.
- `bootstrapper.dfy`: the store and the handlers.
- `properties.dfy`: the branch-by-branch behaviour of save and publish.
- `findings.dfy`: the move check of the publish handler.

Collaborators whose code is not part of this model are parameters gathered in `Env`: `CompareToIgnoreDraftId`, `Trie.Get`, `Trie.MoveTo` and `Trie.Delete`. The model claims nothing about how they work. The slug that `Slug.CreateSlug` would produce is an input string. The document store is reduced to the trie document plus the set of keys of all other documents.

Modelling notes:

- A handler mutates the node object that `SingleOrDefault` returned. The model applies the mutation to every node whose `PageId` the lookup's matcher accepts (`Tries.Update`). When the lookup found exactly one node, this is the same thing: `Tries.UpdateReachesMatch` and the entry lemmas show that exactly that node changes.
- After an uninterpreted `MoveTo`, the assignment `currentNode.Url = …` is modelled the same way, on the moved tree. So the claim there is "every node with the page's id has the new URL".
- `String.Replace` makes one left-to-right pass. `"/dr/draftaft"` becomes `"/draft"` (`Text.StripDraftIsSinglePass`).
- The handlers never set the root's `Url`, so a child of the root gets the bare slug as its URL: `AppendTrailingSlash("") + "about"` is `about` (`Text.ComposeUrlWithoutParentUrl`).

## Model

| member | source | states |
|---|---|---|
| Text.StripDraftUnchangedIff | BrickPile.Core/DefaultBrickPileBootstrapper.cs:213 | removing the draft marker changes a key exactly when the key contains `/draft`, and then makes it strictly shorter |
| Text.StripDraftOfDraftKey | BrickPile.Core/DefaultBrickPileBootstrapper.cs:259 | a draft key `k + "/draft"` yields the same node id as the page key `k` |
| Text.StripDraftIsSinglePass | BrickPile.Core/DefaultBrickPileBootstrapper.cs:185 | `Replace` makes one pass, so a node id can still contain `/draft` after stripping |
| Text.AppendTrailingSlash | BrickPile.Core/DefaultBrickPileBootstrapper.cs:233 | an empty path stays empty; a non-empty path ends in exactly one added or existing '/', with the original as prefix |
| Text.ComposeUrl | BrickPile.Core/DefaultBrickPileBootstrapper.cs:232-233 | the page URL starts with the parent URL (null read as empty), ends with the slug, and has a '/' between them when the parent URL is non-empty |
| Text.ComposeUrlWithoutParentUrl | BrickPile.Core/DefaultBrickPileBootstrapper.cs:254-255 | under a parent without URL the page URL is the bare slug |
| Text.ComposeUrlUnderParent | BrickPile.Core/DefaultBrickPileBootstrapper.cs:178-179 | under a parent URL the page URL is that URL, plus '/' when it lacks one, plus the slug |
| Text.EqualsIgnoreCaseProperties | BrickPile.Core/DefaultBrickPileBootstrapper.cs:170-172 | the save path's id comparison is an equivalence that ignores letter case only |
| Tries.SingleOrDefault | BrickPile.Core/DefaultBrickPileBootstrapper.cs:218-224 | lookup over the flattened tree: not found iff no node matches, the node iff exactly one matches, an error iff two or more match |
| Tries.SetUrlRestamps | BrickPile.Core/DefaultBrickPileBootstrapper.cs:245 | setting the matching nodes' `Url` keeps the tree's shape, ids and parent links (the skeleton with URLs erased is unchanged); in pre-order, exactly the matching nodes' `Url` changes |
| Tries.AddChildRoundTrip | BrickPile.Core/DefaultBrickPileBootstrapper.cs:257-262 | `Children.Add` under the matching nodes is undone by removing their last child: nothing else in the tree moves or changes |
| Tries.AddChildEntries | BrickPile.Core/DefaultBrickPileBootstrapper.cs:257-262 | `Children.Add` of a leaf adds exactly that leaf's entry per matching node; no other node's `PageId`, `ParentId` or `Url` changes |
| Tries.AddChildKeepsConsistent | BrickPile.Core/DefaultBrickPileBootstrapper.cs:257-262 | attaching a leaf whose `ParentId` and `Url` fit its parent keeps every parent link and URL nesting of the tree intact |
| Bootstrapper.DraftKeyIsNeverTrieId | BrickPile.Core/DefaultBrickPileBootstrapper.cs:33 | the draft clean-up can never delete the trie document |
| Bootstrapper.CreateDefaultDocuments | BrickPile.Core/DefaultBrickPileBootstrapper.cs:138-149 | an existing trie leaves the store unchanged; otherwise one trie with id `brickpile/trie` and no root is stored; other documents untouched |
| Bootstrapper.CreateDefaultDocumentsIdempotent | BrickPile.Core/DefaultBrickPileBootstrapper.cs:142-147 | bootstrapping twice equals bootstrapping once |
| Bootstrapper.Publish | BrickPile.Core/DefaultBrickPileBootstrapper.cs:203-276 | fails with a missing-trie or lookup fault iff the trie is missing or a lookup is ambiguous; a rewrite fault only when both the parent and the page node are found; on success the draft key is gone and no other key changes; an empty trie gets the stripped key as its root and nothing else |
| Bootstrapper.RewriteCompletesIff | BrickPile.Core/DefaultBrickPileBootstrapper.cs:240-242 | the page rewrite after a move completes iff every node of the moved node's subtree has its page document in the store and `Trie.Get` on the moved trie finds it |
| Bootstrapper.OnPageSave | BrickPile.Core/DefaultBrickPileBootstrapper.cs:152-195 | fails iff the trie is missing or the parent lookup is ambiguous; no document key changes; an empty trie gets the raw key as its root |
| Bootstrapper.OnPageUnPublish | BrickPile.Core/DefaultBrickPileBootstrapper.cs:284 | unpublishing leaves the store unchanged |
| Bootstrapper.OnDocumentDelete | BrickPile.Core/DefaultBrickPileBootstrapper.cs:292-314 | fails iff the trie is missing; `Trie.Delete` is applied exactly when `Get(key)` returns a node, otherwise the trie is unchanged; the draft key is gone afterwards |
| HandlerProperties.PublishAttachesChild | BrickPile.Core/DefaultBrickPileBootstrapper.cs:248-263 | a page without a node, under a found parent, becomes one new leaf appended to that parent with the stripped key, the parent's `PageId` and the composed URL; the rest of the tree is unchanged (removing that parent's last child gives back the old tree) and stays consistent |
| HandlerProperties.PublishKeepsDuplicateOut | BrickPile.Core/DefaultBrickPileBootstrapper.cs:250 | if the parent already has a child with the stripped key, neither the tree nor the page's metadata changes |
| HandlerProperties.PublishDropsOrphan | BrickPile.Core/DefaultBrickPileBootstrapper.cs:220-264 | without a found parent the tree is unchanged, whether or not the page's own node exists |
| HandlerProperties.PublishRefreshesUrl | BrickPile.Core/DefaultBrickPileBootstrapper.cs:226-246 | with page and parent nodes found: when the move check fires, the handler completes iff every page of the moved subtree loads and `Trie.Get` finds it, and then saves `MoveTo`'s tree with the new URL set; the only possible fault is the rewrite's; on completion every node with the page's id has the composed URL |
| HandlerProperties.PublishWithoutMoveKeepsShape | BrickPile.Core/DefaultBrickPileBootstrapper.cs:226-245 | with page and parent nodes found and no move detected, the handler completes; the tree keeps its shape, ids and parent links; only the matching nodes' `Url` changes, and the page's node carries the composed URL |
| HandlerProperties.SaveAndPublishRootsDiffer | BrickPile.Core/DefaultBrickPileBootstrapper.cs:158-164 | into an empty tree, saving the draft document `k/draft` roots the tree at `k/draft`, where publishing it (under either move check) roots the tree at `k` (for a page key `k` without marker), so the two trees differ |
| HandlerProperties.SaveAttachesChild | BrickPile.Core/DefaultBrickPileBootstrapper.cs:175-190 | the save path attaches the same leaf as publish under a parent it found, with no check for the page's own node, and deletes no draft; removing that parent's last child gives back the old tree |
| HandlerProperties.SaveKeepsDuplicateOut | BrickPile.Core/DefaultBrickPileBootstrapper.cs:177-181 | the save path rewrites the page's slug and URL even when the duplicate guard leaves the tree alone |
| HandlerProperties.SaveDropsOrphan | BrickPile.Core/DefaultBrickPileBootstrapper.cs:169-175 | without a parent node the save path changes nothing |
| HandlerProperties.SaveMatchesParentIgnoringCase | BrickPile.Core/DefaultBrickPileBootstrapper.cs:170-172 | a parent node `Pages/1` is found for parent id `pages/1` |
| MoveCheck.AsWrittenMovesUnmovedPage | BrickPile.Core/DefaultBrickPileBootstrapper.cs:236-238 | as written, republishing a page that stayed under its parent still calls `MoveTo`, in a run where the following page rewrite completes; in a store without the page, the as-written check makes the handler throw in that rewrite, for every `MoveTo`, where the intended check completes and leaves the trie as it was |
| MoveCheck.IntendedMovesOnlyMovedPages | BrickPile.Core/DefaultBrickPileBootstrapper.cs:235-245 | with the check on the page's own node, an unmoved page never reaches `MoveTo` and always completes; the saved trie is the old one with only the URL of the page's node replaced, and its shape is unchanged; a moved page is moved, completing iff the page rewrite does |
| MoveCheck.RenameBreaksConsistent | BrickPile.Core/DefaultBrickPileBootstrapper.cs:226-246 | renaming the slug of an unmoved page with descendants: the as-written check hands it to `MoveTo`; the intended check does not, and the saved tree has the page's new URL above a descendant with the old URL prefix, so a consistent tree becomes inconsistent |

## Left out

- Document-store plumbing is left out: sessions, `Load`, `Store`, `SaveChanges`, `Exists`, listener registration and embedded-store set-up. This is I/O. The store is one optional trie plus a set of document keys.
- Bootstrapper.Publish: after a move, the model decides whether the page rewrite completes. It does not model the `Url` values that the rewrite writes into those page documents, because page documents are reduced to their keys. The rewritten pages are taken to be the page node's subtree as it was before `MoveTo`, because the code of `MoveTo` is not part of this model.
- The internals of `MoveTo`, `Trie.Get`, `Trie.Delete`, `CompareToIgnoreDraftId` and `Slug.CreateSlug` are left out. Their code is not part of this model, so they are parameters.
- Dependency-injection, MVC and Web API wiring is left out: routes, view engines, filters, metadata and validator providers. This is framework glue.
- The bootstrapper discovery in the UI project, the configuration classes, the container controller and the page-list script are left out. They have no trie behaviour.
- Concurrent publishes racing on the trie document are left out. The code takes no lock, so there is no sequential behaviour to state.
- Text.EqualsIgnoreCaseProperties: the culture-aware comparison is reduced to ASCII case folding. So the model never equates strings of different lengths, where `CurrentCultureIgnoreCase` may, for example with ignorable characters or with composed and decomposed forms. The culture tables are outside the model.
- Null `PageId` values in a loaded trie are left out. The handlers never create one, so the model's ids are plain strings.
- MoveCheck.IntendedMovesOnlyMovedPages: the corrected move check does not keep the descendants' URLs in step when an unmoved page's slug changes. The handler has no other code that rewrites them; as written, that job falls to `MoveTo`, whose code is not part of this model (`MoveCheck.RenameBreaksConsistent`).

## Findings

| source | as written | input that shows it | evidently intended | confidence | as-written member | corrected member |
|---|---|---|---|---|---|---|
| BrickPile.Core/DefaultBrickPileBootstrapper.cs:236 | `parentNode.ParentId != currentPage.Parent.Id` compares the parent node's own parent (the page's grandparent) with the page's parent, so the check fires on almost every republish. The comment on line 235 says it is meant to detect a moved page. | home > about > team; republish team with parent about and unchanged slug: `MoveTo` is called | `currentNode.ParentId != currentPage.Parent.Id`: move only when the page's node records another parent. The trade-off: a slug-only rename then no longer passes through `MoveTo`, the only call that could rewrite the descendants' URLs (`MoveCheck.RenameBreaksConsistent`) | medium, not executed | MoveCheck.AsWrittenMovesUnmovedPage | MoveCheck.IntendedMovesOnlyMovedPages |

`Bootstrapper.Publish` takes the move check as a parameter. `OnPagePublish` uses the check as written; `OnPagePublishIntended` uses the corrected one. Every publish property in `HandlerProperties` holds for both.

=== FILE: basics.dfy ===
/** Optional values and failure-carrying results, standing in for C# `null`
    and for the exceptions the event handlers can throw. */
module Basics {

  /** A possibly-absent value: `None` plays the role of a C# null reference. */
  datatype Option<+T> = None | Some(value: T) {

    /** The C# `??` operator: the value, or `default` when absent. */
    function GetOr(default: T): T {
      match this
      case Some(v) => v
      case None => default
    }
  }

  /** Either a successful value or an error. */
  datatype Result<+T, +E> = Success(value: T) | Failure(error: E)
}

=== FILE: bootstrapper.dfy ===
/** The content-store event handlers of the default bootstrapper: creation
    of the trie document at start-up, and the maintenance of the page tree
    when a page is saved, published, unpublished or deleted. Each handler
    is a pure transition from the store it loads to the store it saves;
    an exception inside the handler (a null trie, a lookup with more than
    one match) leaves the store as it was, since nothing is saved. */
module Bootstrapper {
  import opened Basics
  import opened Text
  import opened Tries

  /** The well-known id of the singleton trie document. */
  const TrieId: string := "brickpile/trie"

  /** The document store as the handlers see it: the trie document loaded
      by `TrieId` (null when absent) and the keys of every other document. */
  datatype Store = Store(trie: Option<Trie>, keys: set<string>)

  /** The collaborators whose code is not part of this model, kept abstract:
      the `CompareToIgnoreDraftId` string extension and the trie's `Get`,
      `MoveTo` and `Delete`. */
  datatype Env = Env(
    compareToIgnoreDraftId: (string, string) -> bool,
    get: (Trie, string) -> Option<TrieNode>,
    moveTo: (Trie, TrieNode, TrieNode) -> Trie,
    delete: (Trie, TrieNode) -> Trie)

  /** The slug and URL cached in a page's metadata. */
  datatype Metadata = Metadata(slug: string, url: string)

  /** The page an event is about: the id of its parent page (null for none)
      and its metadata. */
  datatype Page = Page(parentId: Option<string>, metadata: Metadata)

  /** The exceptions a handler can raise: the trie document was never
      created (a null dereference), `SingleOrDefault` met two matches, or
      the rewrite of page URLs after a move met a page that did not load or
      a node `Trie.Get` did not find (a null dereference). */
  datatype Fault = TrieNotLoaded | MoreThanOneMatch | PageRewriteFailed

  /** What a handler leaves behind: the saved store and the page's metadata. */
  datatype Handled = Handled(store: Store, metadata: Metadata)

  /** Which node's `ParentId` the publish handler compares with the page's
      parent to decide that the page moved: the parent node's, as the code
      is written, or the page's own node's, as intended. */
  datatype MoveRule = AsWritten | Intended

  /** The draft document of the page is never the trie document. */
  lemma DraftKeyIsNeverTrieId(key: string)
    ensures DraftKey(key) != TrieId
  {
    var d := DraftKey(key);
    assert d[|d| - 1] == 't' && TrieId[|TrieId| - 1] == 'e';
  }

  /** `CreateDefaultDocuments`: stores an empty trie under `TrieId` unless
      one is already there. */
  function CreateDefaultDocuments(store: Store): (r: Store)
    ensures r.trie.Some? && r.keys == store.keys
    ensures store.trie.Some? ==> r == store
    ensures store.trie.None? ==> r.trie == Some(Trie(TrieId, None))
  {
    if store.trie.Some? then store else store.(trie := Some(Trie(TrieId, None)))
  }

  /** Running the bootstrap twice is the same as running it once. */
  lemma CreateDefaultDocumentsIdempotent(store: Store)
    ensures CreateDefaultDocuments(CreateDefaultDocuments(store)) == CreateDefaultDocuments(store)
  {
  }

  /** Matches the nodes `CompareToIgnoreDraftId` relates to `id`. */
  function IdMatcher(env: Env, id: string): string -> bool {
    (pageId: string) => env.compareToIgnoreDraftId(pageId, id)
  }

  /** The publish handler's parent lookup: by `CompareToIgnoreDraftId`
      against the parent's id, and no node at all for a page without parent. */
  function ParentMatcher(env: Env, page: Page): string -> bool {
    match page.parentId
    case Some(parentId) => IdMatcher(env, parentId)
    case None => (pageId: string) => false
  }

  /** The save handler's parent lookup: case-insensitive equality with the
      parent's id, and no node at all for a page without parent. */
  function CaseInsensitiveParentMatcher(page: Page): string -> bool {
    match page.parentId
    case Some(parentId) => (pageId: string) => EqualsIgnoreCase(pageId, parentId)
    case None => (pageId: string) => false
  }

  /** The node attached for the page with document `key` under `parentNode`. */
  function NewChild(parentNode: TrieNode, key: string, slug: string): (c: TrieNode)
    ensures c.children == [] && FitsUnder(parentNode, c)
    ensures c.pageId == StripDraft(key) && c.url == Some(ComposeUrl(parentNode.url, slug))
  {
    Leaf(StripDraft(key), Some(parentNode.pageId), Some(ComposeUrl(parentNode.url, slug)))
  }

  /** The trie with the `Url` of every node matching `matches` set. */
  function SetUrlIn(trie: Trie, matches: string -> bool, url: string): Trie {
    match trie.rootNode
    case Some(root) => trie.(rootNode := Some(Update(root, matches, SetUrl(url))))
    case None => trie
  }

  /** Saves the trie and deletes the page's draft document if it exists. */
  function SaveRemovingDraft(store: Store, trie: Trie, key: string): (r: Store)
    ensures DraftKey(key) !in r.keys
  {
    Store(Some(trie), store.keys - {DraftKey(key)})
  }

  /** The publish handler throws: no trie document, or one of its two
      lookups matches more than one node. */
  predicate PublishFails(env: Env, store: Store, key: string, page: Page) {
    || store.trie.None?
    || (store.trie.value.rootNode.Some? &&
        var nodes := Flatten(store.trie.value.rootNode.value);
        CountMatches(nodes, ParentMatcher(env, page)) >= 2 || CountMatches(nodes, IdMatcher(env, key)) >= 2)
  }

  /** Whether the publish handler calls `MoveTo`. */
  function MoveDetected(rule: MoveRule, parentNode: TrieNode, currentNode: TrieNode, parentId: Option<string>): bool {
    match rule
    case AsWritten => parentNode.parentId != parentId
    case Intended => currentNode.parentId != parentId
  }

  /** After `MoveTo`, the publish handler loads the page of every node in
      the moved node's subtree and copies the `Url` that `Trie.Get` finds in
      the moved trie into it. This completes exactly when every such page
      exists and `Trie.Get` finds each of them (`RewriteCompletesIff`). */
  predicate RewriteCompletes(env: Env, store: Store, moved: Trie, node: TrieNode) {
    Rewritable(env, store, moved, Flatten(node))
  }

  /** The pages of `nodes` load and `Trie.Get` finds each, visited in order
      as the handler's `ForEach` does. */
  predicate Rewritable(env: Env, store: Store, moved: Trie, nodes: seq<TrieNode>) {
    || nodes == []
    || (&& nodes[0].pageId in store.keys
        && env.get(moved, nodes[0].pageId).Some?
        && Rewritable(env, store, moved, nodes[1..]))
  }

  lemma {:induction false} RewritableIff(env: Env, store: Store, moved: Trie, nodes: seq<TrieNode>)
    ensures Rewritable(env, store, moved, nodes)
        <==> forall x | x in nodes :: x.pageId in store.keys && env.get(moved, x.pageId).Some?
  {
    if nodes != [] {
      RewritableIff(env, store, moved, nodes[1..]);
      assert nodes == [nodes[0]] + nodes[1..];
    }
  }

  /** The rewrite completes iff every node of the subtree has a page in the
      store that `Trie.Get` finds in the moved trie. */
  lemma RewriteCompletesIff(env: Env, store: Store, moved: Trie, node: TrieNode)
    ensures RewriteCompletes(env, store, moved, node)
        <==> forall x | x in Flatten(node) :: x.pageId in store.keys && env.get(moved, x.pageId).Some?
  {
    RewritableIff(env, store, moved, Flatten(node));
  }

  /** `OnPagePublish`, with the move check chosen by `rule`. */
  function Publish(rule: MoveRule, env: Env, store: Store, key: string, page: Page, slug: string): (r: Result<Handled, Fault>)
    ensures (r.Failure? && r.error != PageRewriteFailed) <==> PublishFails(env, store, key, page)
    ensures r.Failure? ==> (r.error == TrieNotLoaded <==> store.trie.None?)
    ensures r.Failure? && r.error == PageRewriteFailed ==>
              && store.trie.Some? && store.trie.value.rootNode.Some?
              && CountMatches(Flatten(store.trie.value.rootNode.value), ParentMatcher(env, page)) == 1
              && CountMatches(Flatten(store.trie.value.rootNode.value), IdMatcher(env, key)) == 1
    ensures r.Success? ==> r.value.store.trie.Some? && r.value.store.keys == store.keys - {DraftKey(key)}
    ensures r.Success? && store.trie.value.rootNode.None? ==>
              && r.value.store.trie == Some(store.trie.value.(rootNode := Some(Leaf(StripDraft(key), None, None))))
              && r.value.metadata == page.metadata
  {
    if store.trie.None? then Failure(TrieNotLoaded)
    else
      var trie := store.trie.value;
      match trie.rootNode
      case None =>
        Success(Handled(SaveRemovingDraft(store, trie.(rootNode := Some(Leaf(StripDraft(key), None, None))), key), page.metadata))
      case Some(root) =>
        var nodes := Flatten(root);
        var parentLookup := SingleOrDefault(nodes, ParentMatcher(env, page));
        var currentLookup := SingleOrDefault(nodes, IdMatcher(env, key));
        if parentLookup.Ambiguous? || currentLookup.Ambiguous? then Failure(MoreThanOneMatch)
        else if parentLookup.NotFound? then
          Success(Handled(SaveRemovingDraft(store, trie, key), page.metadata))
        else
          var parentNode := parentLookup.node;
          var url := ComposeUrl(parentNode.url, slug);
          if currentLookup.Found? then
            var currentNode := currentLookup.node;
            if MoveDetected(rule, parentNode, currentNode, page.parentId) then
              var moved := env.moveTo(trie, parentNode, currentNode);
              if !RewriteCompletes(env, store, moved, currentNode) then Failure(PageRewriteFailed)
              else Success(Handled(SaveRemovingDraft(store, SetUrlIn(moved, IdMatcher(env, key), url), key), Metadata(slug, url)))
            else
              Success(Handled(SaveRemovingDraft(store, SetUrlIn(trie, IdMatcher(env, key), url), key), Metadata(slug, url)))
          else if HasChildWithId(parentNode, StripDraft(key)) then
            Success(Handled(SaveRemovingDraft(store, trie, key), page.metadata))
          else
            var attached := Update(root, ParentMatcher(env, page), AddChild(NewChild(parentNode, key, slug)));
            Success(Handled(SaveRemovingDraft(store, trie.(rootNode := Some(attached)), key), Metadata(slug, url)))
  }

  /** `OnPagePublish` as the code is written. */
  function OnPagePublish(env: Env, store: Store, key: string, page: Page, slug: string): Result<Handled, Fault> {
    Publish(AsWritten, env, store, key, page, slug)
  }

  /** `OnPagePublish` with the move check on the page's own node. */
  function OnPagePublishIntended(env: Env, store: Store, key: string, page: Page, slug: string): Result<Handled, Fault> {
    Publish(Intended, env, store, key, page, slug)
  }

  /** The save handler throws: no trie document, or the parent lookup
      matches more than one node. */
  predicate SaveFails(store: Store, page: Page) {
    || store.trie.None?
    || (store.trie.value.rootNode.Some? &&
        CountMatches(Flatten(store.trie.value.rootNode.value), CaseInsensitiveParentMatcher(page)) >= 2)
  }

  /** `OnPageSave`, the obsolete save path: the root keeps the raw key, the
      parent is matched ignoring case, and no draft is cleaned up. */
  function OnPageSave(store: Store, key: string, page: Page, slug: string): (r: Result<Handled, Fault>)
    ensures r.Failure? <==> SaveFails(store, page)
    ensures r.Failure? ==> (r.error == TrieNotLoaded <==> store.trie.None?)
    ensures r.Success? ==> r.value.store.trie.Some? && r.value.store.keys == store.keys
    ensures r.Success? && store.trie.value.rootNode.None? ==>
              && r.value.store.trie == Some(store.trie.value.(rootNode := Some(Leaf(key, None, None))))
              && r.value.metadata == page.metadata
  {
    if store.trie.None? then Failure(TrieNotLoaded)
    else
      var trie := store.trie.value;
      match trie.rootNode
      case None =>
        Success(Handled(store.(trie := Some(trie.(rootNode := Some(Leaf(key, None, None))))), page.metadata))
      case Some(root) =>
        match SingleOrDefault(Flatten(root), CaseInsensitiveParentMatcher(page))
        case Ambiguous => Failure(MoreThanOneMatch)
        case NotFound => Success(Handled(store, page.metadata))
        case Found(parentNode) =>
          var metadata := Metadata(slug, ComposeUrl(parentNode.url, slug));
          if HasChildWithId(parentNode, StripDraft(key)) then Success(Handled(store, metadata))
          else
            var attached := Update(root, CaseInsensitiveParentMatcher(page), AddChild(NewChild(parentNode, key, slug)));
            Success(Handled(store.(trie := Some(trie.(rootNode := Some(attached)))), metadata))
  }

  /** `OnPageUnPublish`: the event is ignored. */
  function OnPageUnPublish(store: Store, key: string, page: Page): (r: Store)
    ensures r == store
  {
    store
  }

  /** `OnDocumentDelete`: removes the page's node through `Trie.Delete` when
      `Trie.Get` finds one, and deletes the page's draft document. */
  function OnDocumentDelete(env: Env, store: Store, key: string): (r: Result<Store, Fault>)
    ensures r.Failure? <==> store.trie.None?
    ensures r.Failure? ==> r.error == TrieNotLoaded
    ensures r.Success? ==> DraftKey(key) !in r.value.keys && r.value.keys == store.keys - {DraftKey(key)}
    ensures r.Success? && env.get(store.trie.value, key).None? ==> r.value.trie == store.trie
    ensures r.Success? && env.get(store.trie.value, key).Some? ==>
              r.value.trie == Some(env.delete(store.trie.value, env.get(store.trie.value, key).value))
  {
    if store.trie.None? then Failure(TrieNotLoaded)
    else
      var trie := store.trie.value;
      var remaining := match env.get(trie, key)
        case Some(node) => env.delete(trie, node)
        case None => trie;
      Success(SaveRemovingDraft(store, remaining, key))
  }
}

=== FILE: findings.dfy ===
/** The move check of the publish handler. As written it compares the
    PARENT node's `ParentId` (the grandparent of the page) with the page's
    parent id, so it fires on nearly every republish, also for pages that
    never moved. The intended check compares the page's own node's
    `ParentId`. */
module MoveCheck {
  import opened Basics
  import opened Text
  import opened Tries
  import opened Bootstrapper
  import opened HandlerProperties

  /** A three-level tree: home, its child "about", and the page "team"
      under "about". */
  const Team := TrieNode("pages/3", Some("pages/2"), Some("about/team"), [])
  const About := TrieNode("pages/2", Some("pages/1"), Some("about"), [Team])
  const Home := TrieNode("pages/1", None, None, [About])

  /** Exact id comparison, a `Trie.Get` that finds the team node, and a
      `MoveTo` that drops the root so that its call shows in the saved trie. */
  const Witness := Env((a: string, b: string) => a == b, (t: Trie, k: string) => Some(Team),
                       (t: Trie, p: TrieNode, c: TrieNode) => t.(rootNode := None), (t: Trie, n: TrieNode) => t)

  /** The team page, republished under the same parent with the same slug. */
  const Unmoved := Page(Some("pages/2"), Metadata("team", "about/team"))

  /** The pre-order listing of the three-level tree. */
  lemma ScenarioNodes()
    ensures Flatten(Home) == [Home, About, Team]
  {
    assert Flatten(Team) == [Team];
    assert FlattenAll([Team]) == [Team] by {
      assert [Team][1..] == [];
    }
    assert Flatten(About) == [About, Team];
    assert FlattenAll([About]) == [About, Team] by {
      assert [About][1..] == [];
    }
  }

  /** Counting matches over the listing, one node at a time. */
  lemma CountThree(matches: string -> bool)
    ensures CountMatches([Home, About, Team], matches)
         == (if matches(Home.pageId) then 1 else 0) + (if matches(About.pageId) then 1 else 0)
          + (if matches(Team.pageId) then 1 else 0)
  {
    var nodes := [Home, About, Team];
    assert nodes[1..] == [About, Team] && [About, Team][1..] == [Team] && [Team][1..] == [];
    assert CountMatches([Team], matches) == (if matches(Team.pageId) then 1 else 0) + CountMatches([], matches);
    assert CountMatches([About, Team], matches)
        == (if matches(About.pageId) then 1 else 0) + CountMatches([Team], matches);
    assert CountMatches(nodes, matches) == (if matches(Home.pageId) then 1 else 0) + CountMatches([About, Team], matches);
  }

  lemma ScenarioLookups()
    ensures UniqueMatch(Home, ParentMatcher(Witness, Unmoved), About)
    ensures UniqueMatch(Home, IdMatcher(Witness, "pages/3"), Team)
  {
    var parentMatches := ParentMatcher(Witness, Unmoved);
    var keyMatches := IdMatcher(Witness, "pages/3");
    ScenarioNodes();
    assert "pages/1"[6] != "pages/2"[6] && "pages/3"[6] != "pages/2"[6] && "pages/1"[6] != "pages/3"[6];
    assert !parentMatches(Home.pageId) && parentMatches(About.pageId) && !parentMatches(Team.pageId);
    assert !keyMatches(Home.pageId) && !keyMatches(About.pageId) && keyMatches(Team.pageId);
    CountThree(parentMatches);
    CountThree(keyMatches);
  }

  /** Recomposing the team page's URL gives the URL it already has, so
      setting it changes nothing. */
  lemma ScenarioUrlUnchanged()
    ensures ComposeUrl(About.url, "team") == "about/team"
    ensures Update(Home, IdMatcher(Witness, "pages/3"), SetUrl("about/team")) == Home
  {
    var keyMatches := IdMatcher(Witness, "pages/3");
    var f := SetUrl("about/team");
    assert "pages/1"[6] != "pages/3"[6] && "pages/2"[6] != "pages/3"[6];
    assert UpdateAll([], keyMatches, f) == [];
    assert Update(Team, keyMatches, f) == Team;
    assert UpdateAll([Team], keyMatches, f) == [Team];
    assert Update(About, keyMatches, f) == About;
    assert UpdateAll([About], keyMatches, f) == [About];
  }

  /** In a store holding the team page, the rewrite after any move of the
      team node completes. */
  lemma ScenarioRewrite(store: Store, moved: Trie)
    requires "pages/3" in store.keys
    ensures RewriteCompletes(Witness, store, moved, Team)
  {
    assert Flatten(Team) == [Team];
  }

  /** Republishing a page that stayed under its parent. In a store that
      holds the team page, with the check as written `MoveTo` runs, the
      rewrite of the moved pages completes, and the witness `MoveTo` shows
      in the saved tree; with the intended check the tree is saved as it
      was. In a store without the team page, whatever `moveTo` stands for
      `MoveTo`, the check as written makes the handler throw in the
      rewrite, where the intended check completes. */
  lemma AsWrittenMovesUnmovedPage(moveTo: (Trie, TrieNode, TrieNode) -> Trie)
    ensures
      var store := Store(Some(Trie(TrieId, Some(Home))), {"pages/3"});
      var asWritten := OnPagePublish(Witness, store, "pages/3", Unmoved, "team");
      var intended := OnPagePublishIntended(Witness, store, "pages/3", Unmoved, "team");
      && Team.parentId == Unmoved.parentId
      && RewriteCompletes(Witness, store, Witness.moveTo(store.trie.value, About, Team), Team)
      && asWritten.Success? && asWritten.value.store.trie == Some(Trie(TrieId, None))
      && intended.Success? && intended.value.store.trie == store.trie
    ensures
      var env := Witness.(moveTo := moveTo);
      var store := Store(Some(Trie(TrieId, Some(Home))), {});
      var asWritten := OnPagePublish(env, store, "pages/3", Unmoved, "team");
      var intended := OnPagePublishIntended(env, store, "pages/3", Unmoved, "team");
      && asWritten == Failure(PageRewriteFailed)
      && intended.Success? && intended.value.store.trie == store.trie
  {
    var store := Store(Some(Trie(TrieId, Some(Home))), {"pages/3"});
    ScenarioRewrite(store, Witness.moveTo(store.trie.value, About, Team));
    ScenarioLookups();
    ScenarioUrlUnchanged();
    PublishRefreshesUrl(AsWritten, Witness, store, "pages/3", Unmoved, "team", About, Team);
    PublishWithoutMoveKeepsShape(Intended, Witness, store, "pages/3", Unmoved, "team", About, Team);
    var env := Witness.(moveTo := moveTo);
    var bare := Store(Some(Trie(TrieId, Some(Home))), {});
    MatchersIgnoreMoveTo(Witness, moveTo, "pages/3", Unmoved);
    assert !RewriteCompletes(env, bare, env.moveTo(bare.trie.value, About, Team), Team) by {
      assert Flatten(Team) == [Team];
    }
    PublishRefreshesUrl(AsWritten, env, bare, "pages/3", Unmoved, "team", About, Team);
    PublishWithoutMoveKeepsShape(Intended, env, bare, "pages/3", Unmoved, "team", About, Team);
  }

  /** The about page, republished under the same parent with the new slug
      "info". */
  const Renamed := Page(Some("pages/1"), Metadata("about", "about"))

  lemma RenameLookups()
    ensures UniqueMatch(Home, ParentMatcher(Witness, Renamed), Home)
    ensures UniqueMatch(Home, IdMatcher(Witness, "pages/2"), About)
  {
    var parentMatches := ParentMatcher(Witness, Renamed);
    var keyMatches := IdMatcher(Witness, "pages/2");
    ScenarioNodes();
    assert "pages/1"[6] != "pages/2"[6] && "pages/3"[6] != "pages/2"[6] && "pages/1"[6] != "pages/3"[6];
    assert parentMatches(Home.pageId) && !parentMatches(About.pageId) && !parentMatches(Team.pageId);
    assert !keyMatches(Home.pageId) && keyMatches(About.pageId) && !keyMatches(Team.pageId);
    CountThree(parentMatches);
    CountThree(keyMatches);
  }

  /** The tree with the about page's URL set to "info". */
  lemma RenameUpdate()
    ensures ComposeUrl(Home.url, "info") == "info"
    ensures Update(Home, IdMatcher(Witness, "pages/2"), SetUrl("info"))
         == TrieNode("pages/1", None, None, [TrieNode("pages/2", Some("pages/1"), Some("info"), [Team])])
  {
    var keyMatches := IdMatcher(Witness, "pages/2");
    var f := SetUrl("info");
    assert "pages/1"[6] != "pages/2"[6] && "pages/3"[6] != "pages/2"[6];
    assert UpdateAll([], keyMatches, f) == [];
    assert Update(Team, keyMatches, f) == Team;
    assert UpdateAll([Team], keyMatches, f) == [Team];
    var renamed := TrieNode("pages/2", Some("pages/1"), Some("info"), [Team]);
    assert Update(About, keyMatches, f) == renamed;
    assert UpdateAll([About], keyMatches, f) == [renamed];
  }

  /** The cost of the correction: renaming the slug of a page with
      descendants, without moving it. The check as written fires here too
      and hands the page to `MoveTo`, the only call that could rewrite the
      descendants' URLs. The intended check does not, so the handler
      completes with the page's new URL "info" above the team page's
      unchanged "about/team", and a consistent tree comes out inconsistent. */
  lemma RenameBreaksConsistent()
    ensures Consistent(Home)
    ensures MoveDetected(AsWritten, Home, About, Renamed.parentId)
    ensures !MoveDetected(Intended, Home, About, Renamed.parentId)
    ensures
      var store := Store(Some(Trie(TrieId, Some(Home))), {});
      var r := OnPagePublishIntended(Witness, store, "pages/2", Renamed, "info");
      && r.Success?
      && r.value.store.trie.value.rootNode.Some?
      && !Consistent(r.value.store.trie.value.rootNode.value)
  {
    assert FitsUnder(About, Team) by {
      assert AppendTrailingSlash("about") == "about/";
    }
    assert Consistent(Team);
    assert Consistent(About);
    assert Consistent(Home);
    var store := Store(Some(Trie(TrieId, Some(Home))), {});
    RenameLookups();
    RenameUpdate();
    PublishWithoutMoveKeepsShape(Intended, Witness, store, "pages/2", Renamed, "info", Home, About);
    var renamed := TrieNode("pages/2", Some("pages/1"), Some("info"), [Team]);
    assert !FitsUnder(renamed, Team) by {
      assert AppendTrailingSlash("info") == "info/";
      assert "about/team"[0] != "info/"[0];
    }
    assert renamed.children[0] == Team;
    assert !Consistent(renamed);
    assert TrieNode("pages/1", None, None, [renamed]).children[0] == renamed;
  }

  /** The lookups do not depend on which `MoveTo` the trie has. */
  lemma MatchersIgnoreMoveTo(env: Env, otherMoveTo: (Trie, TrieNode, TrieNode) -> Trie, key: string, page: Page)
    ensures ParentMatcher(env.(moveTo := otherMoveTo), page) == ParentMatcher(env, page)
    ensures IdMatcher(env.(moveTo := otherMoveTo), key) == IdMatcher(env, key)
  {
  }

  /** The corrected check: republishing a page whose node already records the
      page's parent never consults `MoveTo` (any `MoveTo` gives the same
      result), keeps the tree's shape and updates only the URL of the page's
      node; a page whose node
      records another parent is moved, and the handler completes exactly
      when the rewrite of the moved pages' URLs does. */
  lemma IntendedMovesOnlyMovedPages(env: Env, otherMoveTo: (Trie, TrieNode, TrieNode) -> Trie,
                                    store: Store, key: string, page: Page, slug: string, p: TrieNode, c: TrieNode)
    requires store.trie.Some? && store.trie.value.rootNode.Some?
    requires UniqueMatch(store.trie.value.rootNode.value, ParentMatcher(env, page), p)
    requires UniqueMatch(store.trie.value.rootNode.value, IdMatcher(env, key), c)
    ensures
      var trie := store.trie.value;
      var url := ComposeUrl(p.url, slug);
      var r := OnPagePublishIntended(env, store, key, page, slug);
      && (c.parentId == page.parentId ==>
            && r.Success?
            && OnPagePublishIntended(env.(moveTo := otherMoveTo), store, key, page, slug) == r
            && r.value.store.trie == Some(SetUrlIn(trie, IdMatcher(env, key), url))
            && r.value.store.trie.value.rootNode.Some?
            && Skeleton(r.value.store.trie.value.rootNode.value) == Skeleton(trie.rootNode.value)
            && Entries(Flatten(r.value.store.trie.value.rootNode.value))
               == Restamp(Entries(Flatten(trie.rootNode.value)), IdMatcher(env, key), url))
      && (c.parentId != page.parentId ==>
            && (r.Success? <==> RewriteCompletes(env, store, env.moveTo(trie, p, c), c))
            && (r.Success? ==> r.value.store.trie == Some(SetUrlIn(env.moveTo(trie, p, c), IdMatcher(env, key), url))))
  {
    var other := env.(moveTo := otherMoveTo);
    MatchersIgnoreMoveTo(env, otherMoveTo, key, page);
    PublishRefreshesUrl(Intended, env, store, key, page, slug, p, c);
    PublishRefreshesUrl(Intended, other, store, key, page, slug, p, c);
    if c.parentId == page.parentId {
      PublishWithoutMoveKeepsShape(Intended, env, store, key, page, slug, p, c);
      PublishWithoutMoveKeepsShape(Intended, other, store, key, page, slug, p, c);
    }
  }
}

=== FILE: properties.dfy ===
/** What the save and publish handlers do to the tree, branch by branch:
    which node is created and with which fields, when the tree is left as
    it was, and what stays untouched around the nodes that change. */
module HandlerProperties {
  import opened Basics
  import opened Text
  import opened Tries
  import opened Bootstrapper

  /** A page without a parent matches no node in the publish handler. */
  lemma NoParentMatchesNothing(env: Env, page: Page, ns: seq<TrieNode>)
    requires page.parentId.None?
    ensures CountMatches(ns, ParentMatcher(env, page)) == 0
  {
    CountMatchesZero(ns, ParentMatcher(env, page));
  }

  /** A page without a parent matches no node in the save handler. */
  lemma NoParentMatchesNothingIgnoringCase(page: Page, ns: seq<TrieNode>)
    requires page.parentId.None?
    ensures CountMatches(ns, CaseInsensitiveParentMatcher(page)) == 0
  {
    CountMatchesZero(ns, CaseInsensitiveParentMatcher(page));
  }

  /** A key with no '/' early enough to start a draft marker is its own
      page id. */
  lemma KeyWithoutMark(key: string)
    requires forall i | 0 <= i <= |key| - |DraftMark| :: key[i] != '/'
    ensures StripDraft(key) == key
  {
    assert !HasDraftMark(key);
    StripDraftUnchangedIff(key);
  }

  /** Attaching the leaf `c` under the single node `p` that `matches`
      accepts: `p` now has `c` appended to its children, the tree gained
      exactly `c`'s entry and lost nothing, and a consistent tree stays
      consistent. */
  lemma AttachUnderUniqueParent(root: TrieNode, matches: string -> bool, p: TrieNode, c: TrieNode)
    requires UniqueMatch(root, matches, p)
    requires c.children == [] && FitsUnder(p, c)
    ensures p.(children := p.children + [c]) in Flatten(Update(root, matches, AddChild(c)))
    ensures Update(Update(root, matches, AddChild(c)), matches, DropLastChild()) == root
    ensures multiset(Entries(Flatten(Update(root, matches, AddChild(c)))))
         == multiset(Entries(Flatten(root))) + multiset{EntryOf(c)}
    ensures Consistent(root) ==> Consistent(Update(root, matches, AddChild(c)))
  {
    UpdateReachesMatch(root, matches, AddChild(c), p);
    AddChildRoundTrip(root, matches, c);
    AddChildEntries(root, matches, c);
    assert Copies(EntryOf(c), 1) == multiset{EntryOf(c)};
    if Consistent(root) {
      forall x | x in Flatten(root) && matches(x.pageId)
        ensures FitsUnder(x, c)
      {
        SingleMatchIsUnique(Flatten(root), matches, x, p);
      }
      AddChildKeepsConsistent(root, matches, c);
    }
  }

  /** Publishing a page that has no node yet, under a parent node that is
      found and has no child with the page's id, appends one new leaf to
      that parent: `PageId` the key without its draft marker, `ParentId`
      the parent's `PageId`, `Url` the parent's URL with a trailing '/'
      followed by the slug. Nothing else in the tree changes: removing the
      parent's last child gives back the old tree. */
  lemma PublishAttachesChild(rule: MoveRule, env: Env, store: Store, key: string, page: Page, slug: string, p: TrieNode)
    requires store.trie.Some? && store.trie.value.rootNode.Some?
    requires UniqueMatch(store.trie.value.rootNode.value, ParentMatcher(env, page), p)
    requires CountMatches(Flatten(store.trie.value.rootNode.value), IdMatcher(env, key)) == 0
    requires !HasChildWithId(p, StripDraft(key))
    ensures
      var root := store.trie.value.rootNode.value;
      var c := TrieNode(StripDraft(key), Some(p.pageId), Some(ComposeUrl(p.url, slug)), []);
      var r := Publish(rule, env, store, key, page, slug);
      && r.Success?
      && r.value.store.trie.value.id == store.trie.value.id
      && r.value.store.trie.value.rootNode.Some?
      && var after := r.value.store.trie.value.rootNode.value;
      && p.(children := p.children + [c]) in Flatten(after)
      && Update(after, ParentMatcher(env, page), DropLastChild()) == root
      && multiset(Entries(Flatten(after))) == multiset(Entries(Flatten(root))) + multiset{EntryOf(c)}
      && (Consistent(root) ==> Consistent(after))
      && r.value.metadata == Metadata(slug, ComposeUrl(p.url, slug))
  {
    var root := store.trie.value.rootNode.value;
    FindsUniqueMatch(root, ParentMatcher(env, page), p);
    AttachUnderUniqueParent(root, ParentMatcher(env, page), p, NewChild(p, key, slug));
  }

  /** The duplicate guard: when the found parent already has a child with
      the page's id, publishing changes neither the tree nor the page. */
  lemma PublishKeepsDuplicateOut(rule: MoveRule, env: Env, store: Store, key: string, page: Page, slug: string, p: TrieNode)
    requires store.trie.Some? && store.trie.value.rootNode.Some?
    requires UniqueMatch(store.trie.value.rootNode.value, ParentMatcher(env, page), p)
    requires CountMatches(Flatten(store.trie.value.rootNode.value), IdMatcher(env, key)) == 0
    requires HasChildWithId(p, StripDraft(key))
    ensures
      var r := Publish(rule, env, store, key, page, slug);
      r.Success? && r.value.store.trie == store.trie && r.value.metadata == page.metadata
  {
    FindsUniqueMatch(store.trie.value.rootNode.value, ParentMatcher(env, page), p);
  }

  /** The silent drop: when no parent node is found (or the page has no
      parent), publishing leaves the tree and the page as they were, whether
      or not the page has a node of its own. */
  lemma PublishDropsOrphan(rule: MoveRule, env: Env, store: Store, key: string, page: Page, slug: string)
    requires store.trie.Some? && store.trie.value.rootNode.Some?
    requires page.parentId.None? || CountMatches(Flatten(store.trie.value.rootNode.value), ParentMatcher(env, page)) == 0
    requires CountMatches(Flatten(store.trie.value.rootNode.value), IdMatcher(env, key)) <= 1
    ensures
      var r := Publish(rule, env, store, key, page, slug);
      && r.Success?
      && r.value.store == Store(store.trie, store.keys - {DraftKey(key)})
      && r.value.metadata == page.metadata
  {
    if page.parentId.None? {
      NoParentMatchesNothing(env, page, Flatten(store.trie.value.rootNode.value));
    }
  }

  /** Republishing a page whose node and parent node are both found: the
      page's URL is recomposed from the parent node's URL and the slug.
      When the rule's move check fires, `MoveTo(parentNode, currentNode)` is
      applied and the handler completes exactly when the rewrite of the
      moved pages' URLs does. On completion every node with the page's id
      carries the new URL. */
  lemma PublishRefreshesUrl(rule: MoveRule, env: Env, store: Store, key: string, page: Page, slug: string, p: TrieNode, c: TrieNode)
    requires store.trie.Some? && store.trie.value.rootNode.Some?
    requires UniqueMatch(store.trie.value.rootNode.value, ParentMatcher(env, page), p)
    requires UniqueMatch(store.trie.value.rootNode.value, IdMatcher(env, key), c)
    ensures
      var url := ComposeUrl(p.url, slug);
      var moved := env.moveTo(store.trie.value, p, c);
      var r := Publish(rule, env, store, key, page, slug);
      && (MoveDetected(rule, p, c, page.parentId) ==> (r.Success? <==> RewriteCompletes(env, store, moved, c)))
      && (r.Failure? ==> r.error == PageRewriteFailed)
      && (r.Success? ==> r.value.metadata == Metadata(slug, url))
      && (MoveDetected(rule, p, c, page.parentId) && r.Success? ==>
            r.value.store.trie == Some(SetUrlIn(moved, IdMatcher(env, key), url)))
      && (r.Success? && r.value.store.trie.value.rootNode.Some? ==>
            forall x | x in Flatten(r.value.store.trie.value.rootNode.value) && IdMatcher(env, key)(x.pageId) ::
              x.url == Some(url))
  {
    var trie := store.trie.value;
    var url := ComposeUrl(p.url, slug);
    FindsUniqueMatch(trie.rootNode.value, ParentMatcher(env, page), p);
    FindsUniqueMatch(trie.rootNode.value, IdMatcher(env, key), c);
    var r := Publish(rule, env, store, key, page, slug);
    if r.Success? && r.value.store.trie.value.rootNode.Some? {
      var moved := if MoveDetected(rule, p, c, page.parentId) then env.moveTo(trie, p, c) else trie;
      SetUrlReachesEveryMatch(moved.rootNode.value, IdMatcher(env, key), url);
    }
  }

  /** Republishing a page whose node and parent node are both found, when
      the rule's move check does not fire: the handler always completes, the
      tree keeps its shape, ids and parent links, only the matching nodes'
      `Url` changes, and the page's node is still there with the new URL. */
  lemma PublishWithoutMoveKeepsShape(rule: MoveRule, env: Env, store: Store, key: string, page: Page, slug: string, p: TrieNode, c: TrieNode)
    requires store.trie.Some? && store.trie.value.rootNode.Some?
    requires UniqueMatch(store.trie.value.rootNode.value, ParentMatcher(env, page), p)
    requires UniqueMatch(store.trie.value.rootNode.value, IdMatcher(env, key), c)
    requires !MoveDetected(rule, p, c, page.parentId)
    ensures
      var trie := store.trie.value;
      var root := trie.rootNode.value;
      var url := ComposeUrl(p.url, slug);
      var r := Publish(rule, env, store, key, page, slug);
      && r.Success?
      && r.value.store.trie == Some(SetUrlIn(trie, IdMatcher(env, key), url))
      && r.value.store.trie.value.rootNode.Some?
      && var after := r.value.store.trie.value.rootNode.value;
      && Skeleton(after) == Skeleton(root)
      && Entries(Flatten(after)) == Restamp(Entries(Flatten(root)), IdMatcher(env, key), url)
      && c.(url := Some(url)) in Flatten(after)
  {
    var root := store.trie.value.rootNode.value;
    var url := ComposeUrl(p.url, slug);
    FindsUniqueMatch(root, ParentMatcher(env, page), p);
    FindsUniqueMatch(root, IdMatcher(env, key), c);
    SetUrlRestamps(root, IdMatcher(env, key), url);
    UpdateReachesMatch(root, IdMatcher(env, key), SetUrl(url), c);
  }

  /** The obsolete save path into an empty tree keeps the raw key as the
      root's id, where publishing strips the draft marker: for the draft
      document of a page whose key has no marker the two roots differ, and
      only publishing roots the tree at the page's own key. */
  lemma SaveAndPublishRootsDiffer(rule: MoveRule, env: Env, trieId: string, keys: set<string>, pageKey: string, page: Page, slug: string)
    requires !HasDraftMark(pageKey)
    ensures
      var store := Store(Some(Trie(trieId, None)), keys);
      var saved := OnPageSave(store, DraftKey(pageKey), page, slug);
      var published := Publish(rule, env, store, DraftKey(pageKey), page, slug);
      && saved.Success? && published.Success?
      && saved.value.store.trie.value.rootNode.value.pageId == DraftKey(pageKey)
      && published.value.store.trie.value.rootNode.value.pageId == pageKey
      && saved.value.store.trie != published.value.store.trie
  {
    StripDraftOfDraftKey(pageKey);
    StripDraftUnchangedIff(pageKey);
    assert |DraftKey(pageKey)| > |pageKey|;
  }

  /** Saving a page that finds its parent node (ignoring case) and is not yet
      among its children attaches the same leaf publishing would, whether or
      not the page already has a node elsewhere in the tree; removing the
      parent's last child gives back the old tree. */
  lemma SaveAttachesChild(store: Store, key: string, page: Page, slug: string, p: TrieNode)
    requires store.trie.Some? && store.trie.value.rootNode.Some?
    requires UniqueMatch(store.trie.value.rootNode.value, CaseInsensitiveParentMatcher(page), p)
    requires !HasChildWithId(p, StripDraft(key))
    ensures
      var root := store.trie.value.rootNode.value;
      var c := TrieNode(StripDraft(key), Some(p.pageId), Some(ComposeUrl(p.url, slug)), []);
      var r := OnPageSave(store, key, page, slug);
      && r.Success?
      && r.value.store.keys == store.keys
      && r.value.store.trie.value.id == store.trie.value.id
      && r.value.store.trie.value.rootNode.Some?
      && var after := r.value.store.trie.value.rootNode.value;
      && p.(children := p.children + [c]) in Flatten(after)
      && Update(after, CaseInsensitiveParentMatcher(page), DropLastChild()) == root
      && multiset(Entries(Flatten(after))) == multiset(Entries(Flatten(root))) + multiset{EntryOf(c)}
      && (Consistent(root) ==> Consistent(after))
      && r.value.metadata == Metadata(slug, ComposeUrl(p.url, slug))
  {
    var root := store.trie.value.rootNode.value;
    FindsUniqueMatch(root, CaseInsensitiveParentMatcher(page), p);
    AttachUnderUniqueParent(root, CaseInsensitiveParentMatcher(page), p, NewChild(p, key, slug));
  }

  /** Unlike publishing, the save path recomputes the page's slug and URL
      even when the duplicate guard leaves the tree alone. */
  lemma SaveKeepsDuplicateOut(store: Store, key: string, page: Page, slug: string, p: TrieNode)
    requires store.trie.Some? && store.trie.value.rootNode.Some?
    requires UniqueMatch(store.trie.value.rootNode.value, CaseInsensitiveParentMatcher(page), p)
    requires HasChildWithId(p, StripDraft(key))
    ensures
      var r := OnPageSave(store, key, page, slug);
      r.Success? && r.value.store == store && r.value.metadata == Metadata(slug, ComposeUrl(p.url, slug))
  {
    FindsUniqueMatch(store.trie.value.rootNode.value, CaseInsensitiveParentMatcher(page), p);
  }

  /** Without a parent node the save path changes nothing at all. */
  lemma SaveDropsOrphan(store: Store, key: string, page: Page, slug: string)
    requires store.trie.Some? && store.trie.value.rootNode.Some?
    requires page.parentId.None? || CountMatches(Flatten(store.trie.value.rootNode.value), CaseInsensitiveParentMatcher(page)) == 0
    ensures
      var r := OnPageSave(store, key, page, slug);
      r.Success? && r.value.store == store && r.value.metadata == page.metadata
  {
    if page.parentId.None? {
      NoParentMatchesNothingIgnoringCase(page, Flatten(store.trie.value.rootNode.value));
    }
  }

  /** The save path finds a parent whose id differs from the page's parent
      id only in letter case; under a root without URL the new node's URL is
      the bare slug. */
  lemma SaveMatchesParentIgnoringCase(keys: set<string>)
    ensures
      var store := Store(Some(Trie("brickpile/trie", Some(Leaf("Pages/1", None, None)))), keys);
      var page := Page(Some("pages/1"), Metadata("", ""));
      var r := OnPageSave(store, "pages/2", page, "about");
      && r.Success?
      && r.value.store.trie == Some(Trie("brickpile/trie",
           Some(TrieNode("Pages/1", None, None, [Leaf("pages/2", Some("Pages/1"), Some("about"))]))))
  {
    var root := Leaf("Pages/1", None, None);
    var page := Page(Some("pages/1"), Metadata("", ""));
    var matches := CaseInsensitiveParentMatcher(page);
    EqualsIgnoreCaseProperties("Pages/1", "pages/1", "");
    assert Flatten(root) == [root];
    assert UniqueMatch(root, matches, root);
    KeyWithoutMark("pages/2");
    var c := NewChild(root, "pages/2", "about");
    assert c == Leaf("pages/2", Some("Pages/1"), Some("about"));
    FindsUniqueMatch(root, matches, root);
    assert UpdateAll([], matches, AddChild(c)) == [];
    assert matches(root.pageId);
    assert Update(root, matches, AddChild(c)) == TrieNode("Pages/1", None, None, [c]);
    assert ComposeUrl(root.url, "about") == "about";
  }
}

=== FILE: text.dfy ===
/** The string operations the bootstrapper relies on: removal of the draft
    marker from document keys (`String.Replace("/draft", "")`), the .NET
    `VirtualPathUtility.AppendTrailingSlash`, URL composition from a parent
    URL and a slug, and the case-insensitive comparison of the save path. */
module Text {
  import opened Basics

  /** The marker that distinguishes a draft document key from its page key. */
  const DraftMark: string := "/draft"

  /** The key of the draft document that belongs to `key`. */
  function DraftKey(key: string): string {
    key + DraftMark
  }

  /** `DraftMark` occurs in `s` starting at index `i`. */
  predicate MarkAt(s: string, i: int) {
    0 <= i && i + |DraftMark| <= |s| && s[i..i + |DraftMark|] == DraftMark
  }

  predicate HasDraftMark(s: string) {
    exists i | 0 <= i <= |s| :: MarkAt(s, i)
  }

  /** `s.Replace("/draft", "")` as .NET performs it: a single left-to-right
      scan that drops every non-overlapping occurrence of the marker; text
      that only becomes a marker once an inner one is dropped is kept. */
  function StripDraft(s: string): (r: string)
    ensures |r| <= |s|
    ensures (|s| - |r|) % |DraftMark| == 0
    decreases |s|
  {
    if |s| < |DraftMark| then s
    else if s[..|DraftMark|] == DraftMark then StripDraft(s[|DraftMark|..])
    else [s[0]] + StripDraft(s[1..])
  }

  /** Stripping changes a key exactly when the key carries the marker. */
  lemma {:induction false} StripDraftUnchangedIff(s: string)
    ensures StripDraft(s) == s <==> !HasDraftMark(s)
    ensures HasDraftMark(s) ==> |StripDraft(s)| < |s|
    decreases |s|
  {
    if |s| < |DraftMark| {
      assert !HasDraftMark(s);
    } else if s[..|DraftMark|] == DraftMark {
      assert MarkAt(s, 0);
    } else {
      StripDraftUnchangedIff(s[1..]);
      if HasDraftMark(s) {
        var i :| 0 <= i <= |s| && MarkAt(s, i);
        assert i != 0;
        assert 1 <= i && i + |DraftMark| <= |s|;
        assert s[1..][i - 1..i - 1 + |DraftMark|] == s[i..i + |DraftMark|];
        assert MarkAt(s[1..], i - 1);
      } else {
        forall i | MarkAt(s[1..], i)
          ensures false
        {
          assert s[i + 1..i + 1 + |DraftMark|] == s[1..][i..i + |DraftMark|];
          assert MarkAt(s, i + 1);
        }
        assert StripDraft(s[1..]) == s[1..];
        assert [s[0]] + s[1..] == s;
      }
    }
  }

  /** A draft key and its page key strip to the same page id: the marker's
      only '/' is its first character, so the appended marker can never be
      swallowed by an occurrence that starts earlier. */
  lemma {:induction false} StripDraftOfDraftKey(key: string)
    ensures StripDraft(DraftKey(key)) == StripDraft(key)
    decreases |key|
  {
    var t := DraftKey(key);
    if |key| == 0 {
      assert t == DraftMark;
      assert t[|DraftMark|..] == [];
    } else if |key| < |DraftMark| {
      assert t[..|DraftMark|] != DraftMark by {
        assert t[|key|] == '/';
        assert DraftMark[|key|] != '/';
      }
      assert t[1..] == DraftKey(key[1..]);
      StripDraftOfDraftKey(key[1..]);
      assert StripDraft(key[1..]) == key[1..];
      assert [key[0]] + key[1..] == key;
    } else {
      assert t[..|DraftMark|] == key[..|DraftMark|];
      if key[..|DraftMark|] == DraftMark {
        assert t[|DraftMark|..] == DraftKey(key[|DraftMark|..]);
        StripDraftOfDraftKey(key[|DraftMark|..]);
      } else {
        assert t[1..] == DraftKey(key[1..]);
        StripDraftOfDraftKey(key[1..]);
      }
    }
  }

  /** The single pass is not a closure: removing the inner marker of
      "/dr/draftaft" joins its neighbours into a new marker, which stays. */
  lemma StripDraftIsSinglePass()
    ensures StripDraft("/dr/draftaft") == "/draft"
    ensures HasDraftMark(StripDraft("/dr/draftaft"))
  {
    var s := "/dr/draftaft";
    assert s[..6][3] != DraftMark[3];
    assert s[1..] == "dr/draftaft";
    assert s[1..][..6][0] != DraftMark[0];
    assert s[1..][1..] == "r/draftaft";
    assert s[1..][1..][..6][0] != DraftMark[0];
    assert s[1..][1..][1..] == "/draftaft";
    assert s[1..][1..][1..][..6] == DraftMark;
    assert s[1..][1..][1..][6..] == "aft";
    assert MarkAt("/draft", 0);
  }

  /** `VirtualPathUtility.AppendTrailingSlash`: appends '/' unless the path
      is empty or already ends in '/'. */
  function AppendTrailingSlash(path: string): (r: string)
    ensures path == [] ==> r == []
    ensures path != [] ==> r != [] && r[|r| - 1] == '/'
    ensures path <= r && |r| <= |path| + 1
    ensures path != [] && path[|path| - 1] == '/' ==> r == path
  {
    if |path| == 0 || path[|path| - 1] == '/' then path else path + "/"
  }

  /** Appending a trailing slash a second time changes nothing. */
  lemma AppendTrailingSlashIdempotent(path: string)
    ensures AppendTrailingSlash(AppendTrailingSlash(path)) == AppendTrailingSlash(path)
  {
  }

  /** `slug.Insert(0, AppendTrailingSlash(parentUrl ?? ""))`: the URL of a
      page whose parent node carries `parentUrl`. */
  function ComposeUrl(parentUrl: Option<string>, slug: string): (url: string)
    ensures parentUrl.GetOr("") <= url
    ensures |slug| <= |url| && url[|url| - |slug|..] == slug
    ensures |url| - |slug| - |parentUrl.GetOr("")| in {0, 1}
    ensures parentUrl.GetOr("") != "" ==> url[|url| - |slug| - 1] == '/'
  {
    var prefix := AppendTrailingSlash(parentUrl.GetOr(""));
    assert (prefix + slug)[|prefix + slug| - |slug|..] == slug;
    prefix + slug
  }

  /** Under a parent without a URL (the root as the handlers create it) the
      page URL is the bare slug, with no leading or trailing '/'. */
  lemma ComposeUrlWithoutParentUrl(slug: string)
    ensures ComposeUrl(None, slug) == slug
    ensures ComposeUrl(Some(""), slug) == slug
  {
  }

  /** Under a parent URL the page URL is that URL, one '/' if it lacks one,
      then the slug. */
  lemma ComposeUrlUnderParent(parentUrl: string, slug: string)
    requires parentUrl != ""
    ensures parentUrl[|parentUrl| - 1] == '/' ==> ComposeUrl(Some(parentUrl), slug) == parentUrl + slug
    ensures parentUrl[|parentUrl| - 1] != '/' ==> ComposeUrl(Some(parentUrl), slug) == parentUrl + "/" + slug
  {
  }

  /** ASCII case folding, the part of culture-aware case-insensitivity this
      model keeps. */
  function FoldCase(c: char): char {
    if 'A' <= c <= 'Z' then (c as int + 32) as char else c
  }

  /** `String.Equals(a, b, StringComparison.CurrentCultureIgnoreCase)`,
      restricted to ASCII letters. */
  predicate EqualsIgnoreCase(a: string, b: string) {
    |a| == |b| && forall i | 0 <= i < |a| :: FoldCase(a[i]) == FoldCase(b[i])
  }

  /** Case-insensitive equality is an equivalence that contains ordinary
      equality and tells letters apart only by more than their case. */
  lemma EqualsIgnoreCaseProperties(a: string, b: string, c: string)
    ensures EqualsIgnoreCase(a, a)
    ensures EqualsIgnoreCase(a, b) ==> EqualsIgnoreCase(b, a)
    ensures EqualsIgnoreCase(a, b) && EqualsIgnoreCase(b, c) ==> EqualsIgnoreCase(a, c)
    ensures EqualsIgnoreCase("Pages/1", "pages/1")
    ensures !EqualsIgnoreCase("pages/1", "pages/2")
  {
    assert FoldCase("pages/1"[6]) != FoldCase("pages/2"[6]);
  }
}

=== FILE: trie.dfy ===
/** The persisted page tree: `Trie` with its optional `RootNode`, the
    `TrieNode` entries, the pre-order `Flatten` the handlers search, the
    LINQ `SingleOrDefault` lookup over it, and the in-place node mutations
    (`Children.Add`, `Url = …`) recast as a rewrite of the immutable tree. */
module Tries {
  import opened Basics
  import opened Text

  /** One page's place in the URL hierarchy. `PageId` is never null once a
      handler created the node; `ParentId` and `Url` are null for the root. */
  datatype TrieNode = TrieNode(
    pageId: string,
    parentId: Option<string>,
    url: Option<string>,
    children: seq<TrieNode>)

  /** The singleton tree document: its document id and its root, which stays
      absent until the first page is published. */
  datatype Trie = Trie(id: string, rootNode: Option<TrieNode>)

  /** A freshly constructed node: its `Children` list starts empty. */
  function Leaf(pageId: string, parentId: Option<string>, url: Option<string>): TrieNode {
    TrieNode(pageId, parentId, url, [])
  }

  /** `node.Flatten(n => n.Children)`: the node followed by the flattened
      subtrees of its children, in order. */
  function Flatten(n: TrieNode): seq<TrieNode>
    decreases n, 1
  {
    [n] + FlattenAll(n.children)
  }

  function FlattenAll(ns: seq<TrieNode>): seq<TrieNode>
    decreases ns, 0
  {
    if ns == [] then [] else Flatten(ns[0]) + FlattenAll(ns[1..])
  }

  lemma {:induction false} FlattenAllConcat(a: seq<TrieNode>, b: seq<TrieNode>)
    ensures FlattenAll(a + b) == FlattenAll(a) + FlattenAll(b)
  {
    if a == [] {
      assert a + b == b;
    } else {
      assert (a + b)[1..] == a[1..] + b;
      FlattenAllConcat(a[1..], b);
    }
  }

  /** Every node of a child's subtree is a node of the flattened list. */
  lemma {:induction false} FlattenAllContains(ns: seq<TrieNode>, i: nat, x: TrieNode)
    requires i < |ns| && x in Flatten(ns[i])
    ensures x in FlattenAll(ns)
  {
    if i > 0 {
      FlattenAllContains(ns[1..], i - 1, x);
    }
  }

  /** The part of a node that survives in the document apart from its
      children: what a node "is" when comparing trees before and after. */
  datatype Entry = Entry(pageId: string, parentId: Option<string>, url: Option<string>)

  function EntryOf(n: TrieNode): Entry {
    Entry(n.pageId, n.parentId, n.url)
  }

  function Entries(ns: seq<TrieNode>): (es: seq<Entry>)
    ensures |es| == |ns|
    ensures forall i | 0 <= i < |ns| :: es[i] == EntryOf(ns[i])
  {
    seq(|ns|, i requires 0 <= i < |ns| => EntryOf(ns[i]))
  }

  lemma EntriesConcat(a: seq<TrieNode>, b: seq<TrieNode>)
    ensures Entries(a + b) == Entries(a) + Entries(b)
  {
  }

  /** How many of the nodes have a `PageId` the matcher accepts. */
  function CountMatches(ns: seq<TrieNode>, matches: string -> bool): nat {
    if ns == [] then 0
    else (if matches(ns[0].pageId) then 1 else 0) + CountMatches(ns[1..], matches)
  }

  lemma {:induction false} CountMatchesConcat(a: seq<TrieNode>, b: seq<TrieNode>, matches: string -> bool)
    ensures CountMatches(a + b, matches) == CountMatches(a, matches) + CountMatches(b, matches)
  {
    if a == [] {
      assert a + b == b;
    } else {
      assert (a + b)[1..] == a[1..] + b;
      CountMatchesConcat(a[1..], b, matches);
    }
  }

  /** No match is counted exactly when no node matches. */
  lemma {:induction false} CountMatchesZero(ns: seq<TrieNode>, matches: string -> bool)
    ensures CountMatches(ns, matches) == 0 <==> forall i | 0 <= i < |ns| :: !matches(ns[i].pageId)
  {
    if ns != [] {
      CountMatchesZero(ns[1..], matches);
      assert forall i | 1 <= i < |ns| :: ns[i] == ns[1..][i - 1];
    }
  }

  lemma CountMatchesMember(ns: seq<TrieNode>, matches: string -> bool, x: TrieNode)
    requires x in ns && matches(x.pageId)
    ensures CountMatches(ns, matches) >= 1
  {
    CountMatchesZero(ns, matches);
  }

  /** The outcome of `SingleOrDefault`: no match (the default, null), the one
      match, or more than one match, where LINQ throws. */
  datatype Lookup = NotFound | Found(node: TrieNode) | Ambiguous

  /** `nodes.SingleOrDefault(n => matches(n.PageId))`. */
  function SingleOrDefault(ns: seq<TrieNode>, matches: string -> bool): (r: Lookup)
    ensures r.NotFound? <==> CountMatches(ns, matches) == 0
    ensures r.Found? <==> CountMatches(ns, matches) == 1
    ensures r.Ambiguous? <==> CountMatches(ns, matches) >= 2
    ensures r.Found? ==> r.node in ns && matches(r.node.pageId)
  {
    if ns == [] then NotFound
    else
      var rest := SingleOrDefault(ns[1..], matches);
      if !matches(ns[0].pageId) then rest
      else if rest.NotFound? then Found(ns[0])
      else Ambiguous
  }

  /** Two matching members of a list with a single match are the same node. */
  lemma {:induction false} SingleMatchIsUnique(ns: seq<TrieNode>, matches: string -> bool, x: TrieNode, y: TrieNode)
    requires CountMatches(ns, matches) == 1
    requires x in ns && matches(x.pageId) && y in ns && matches(y.pageId)
    ensures x == y
  {
    if matches(ns[0].pageId) {
      CountMatchesZero(ns[1..], matches);
      assert ns == [ns[0]] + ns[1..];
    } else {
      assert x in ns[1..] && y in ns[1..] by {
        assert ns == [ns[0]] + ns[1..];
      }
      SingleMatchIsUnique(ns[1..], matches, x, y);
    }
  }

  /** The node that the tree's single match of `matches` is. */
  predicate UniqueMatch(root: TrieNode, matches: string -> bool, p: TrieNode) {
    p in Flatten(root) && matches(p.pageId) && CountMatches(Flatten(root), matches) == 1
  }

  /** `SingleOrDefault` over the flattened tree finds the tree's single match. */
  lemma FindsUniqueMatch(root: TrieNode, matches: string -> bool, p: TrieNode)
    requires UniqueMatch(root, matches, p)
    ensures SingleOrDefault(Flatten(root), matches) == Found(p)
  {
    var found := SingleOrDefault(Flatten(root), matches);
    SingleMatchIsUnique(Flatten(root), matches, found.node, p);
  }

  /** Some child of `n` already has the given `PageId`. */
  predicate HasChildWithId(n: TrieNode, pageId: string) {
    exists i | 0 <= i < |n.children| :: n.children[i].pageId == pageId
  }

  /** `node.Children.Add(child)` */
  function AddChild(child: TrieNode): TrieNode -> TrieNode {
    (n: TrieNode) => n.(children := n.children + [child])
  }

  /** Removes a node's last child; the inverse of `AddChild`. */
  function DropLastChild(): TrieNode -> TrieNode {
    (n: TrieNode) => if n.children == [] then n else n.(children := n.children[..|n.children| - 1])
  }

  /** `node.Url = url` */
  function SetUrl(url: string): TrieNode -> TrieNode {
    (n: TrieNode) => n.(url := Some(url))
  }

  /** Applies the mutation `f` to every node whose `PageId` matches. When
      `SingleOrDefault` found exactly one such node, this is the mutation of
      that one object that the handlers perform through its reference. */
  function Update(n: TrieNode, matches: string -> bool, f: TrieNode -> TrieNode): TrieNode
    decreases n, 1
  {
    var updated := n.(children := UpdateAll(n.children, matches, f));
    if matches(n.pageId) then f(updated) else updated
  }

  function UpdateAll(ns: seq<TrieNode>, matches: string -> bool, f: TrieNode -> TrieNode): (r: seq<TrieNode>)
    ensures |r| == |ns|
    decreases ns, 0
  {
    if ns == [] then [] else [Update(ns[0], matches, f)] + UpdateAll(ns[1..], matches, f)
  }

  /** A rewrite that matches nothing leaves the tree as it is. */
  lemma {:induction false} UpdateUnmatched(n: TrieNode, matches: string -> bool, f: TrieNode -> TrieNode)
    requires CountMatches(Flatten(n), matches) == 0
    ensures Update(n, matches, f) == n
    decreases n, 1
  {
    CountMatchesConcat([n], FlattenAll(n.children), matches);
    UpdateAllUnmatched(n.children, matches, f);
  }

  lemma {:induction false} UpdateAllUnmatched(ns: seq<TrieNode>, matches: string -> bool, f: TrieNode -> TrieNode)
    requires CountMatches(FlattenAll(ns), matches) == 0
    ensures UpdateAll(ns, matches, f) == ns
    decreases ns, 0
  {
    if ns != [] {
      CountMatchesConcat(Flatten(ns[0]), FlattenAll(ns[1..]), matches);
      UpdateUnmatched(ns[0], matches, f);
      UpdateAllUnmatched(ns[1..], matches, f);
      assert [ns[0]] + ns[1..] == ns;
    }
  }

  /** When exactly one node matches, the rewritten tree holds that node with
      the mutation applied, and nothing below it was touched. */
  lemma {:induction false} UpdateReachesMatch(n: TrieNode, matches: string -> bool, f: TrieNode -> TrieNode, p: TrieNode)
    requires UniqueMatch(n, matches, p)
    ensures f(p) in Flatten(Update(n, matches, f))
    decreases n, 1
  {
    CountMatchesConcat([n], FlattenAll(n.children), matches);
    if matches(n.pageId) {
      UpdateAllUnmatched(n.children, matches, f);
      if p != n {
        CountMatchesMember(FlattenAll(n.children), matches, p);
      }
    } else {
      UpdateAllReachesMatch(n.children, matches, f, p);
    }
  }

  lemma {:induction false} UpdateAllReachesMatch(ns: seq<TrieNode>, matches: string -> bool, f: TrieNode -> TrieNode, p: TrieNode)
    requires p in FlattenAll(ns) && matches(p.pageId) && CountMatches(FlattenAll(ns), matches) == 1
    ensures f(p) in FlattenAll(UpdateAll(ns, matches, f))
    decreases ns, 0
  {
    var head, tail := ns[0], ns[1..];
    CountMatchesConcat(Flatten(head), FlattenAll(tail), matches);
    var updated := UpdateAll(ns, matches, f);
    assert updated[0] == Update(head, matches, f) && updated[1..] == UpdateAll(tail, matches, f);
    if p in Flatten(head) {
      CountMatchesMember(Flatten(head), matches, p);
      UpdateReachesMatch(head, matches, f, p);
    } else {
      CountMatchesMember(FlattenAll(tail), matches, p);
      UpdateAllReachesMatch(tail, matches, f, p);
    }
  }

  /** The entries of a tree after every matching node's `Url` was set. */
  function Restamp(es: seq<Entry>, matches: string -> bool, url: string): (r: seq<Entry>)
    ensures |r| == |es|
  {
    seq(|es|, i requires 0 <= i < |es| =>
      if matches(es[i].pageId) then es[i].(url := Some(url)) else es[i])
  }

  /** The tree with every `Url` erased: its shape, ids and parent links. */
  function Skeleton(n: TrieNode): TrieNode
    decreases n, 1
  {
    TrieNode(n.pageId, n.parentId, None, SkeletonAll(n.children))
  }

  function SkeletonAll(ns: seq<TrieNode>): (r: seq<TrieNode>)
    ensures |r| == |ns|
    decreases ns, 0
  {
    if ns == [] then [] else [Skeleton(ns[0])] + SkeletonAll(ns[1..])
  }

  /** Setting the `Url` of the matching nodes changes no node's position,
      children, `PageId` or `ParentId`. */
  lemma {:induction false} SetUrlKeepsSkeleton(n: TrieNode, matches: string -> bool, url: string)
    ensures Skeleton(Update(n, matches, SetUrl(url))) == Skeleton(n)
    decreases n, 1
  {
    SetUrlKeepsSkeletonAll(n.children, matches, url);
  }

  lemma {:induction false} SetUrlKeepsSkeletonAll(ns: seq<TrieNode>, matches: string -> bool, url: string)
    ensures SkeletonAll(UpdateAll(ns, matches, SetUrl(url))) == SkeletonAll(ns)
    decreases ns, 0
  {
    if ns != [] {
      var updated := UpdateAll(ns, matches, SetUrl(url));
      assert updated[0] == Update(ns[0], matches, SetUrl(url));
      assert updated[1..] == UpdateAll(ns[1..], matches, SetUrl(url));
      SetUrlKeepsSkeleton(ns[0], matches, url);
      SetUrlKeepsSkeletonAll(ns[1..], matches, url);
    }
  }

  /** Setting the `Url` of the matching nodes keeps the tree's shape and
      every other field: the skeleton is unchanged, and position by position
      in pre-order the entries are the old ones with exactly the matching
      nodes' `Url` replaced. */
  lemma {:induction false} SetUrlRestamps(n: TrieNode, matches: string -> bool, url: string)
    ensures Skeleton(Update(n, matches, SetUrl(url))) == Skeleton(n)
    ensures Entries(Flatten(Update(n, matches, SetUrl(url)))) == Restamp(Entries(Flatten(n)), matches, url)
    decreases n, 1
  {
    SetUrlKeepsSkeleton(n, matches, url);
    var r := Update(n, matches, SetUrl(url));
    SetUrlRestampsAll(n.children, matches, url);
    assert r.children == UpdateAll(n.children, matches, SetUrl(url));
    EntriesConcat([r], FlattenAll(r.children));
    EntriesConcat([n], FlattenAll(n.children));
  }

  lemma {:induction false} SetUrlRestampsAll(ns: seq<TrieNode>, matches: string -> bool, url: string)
    ensures Entries(FlattenAll(UpdateAll(ns, matches, SetUrl(url)))) == Restamp(Entries(FlattenAll(ns)), matches, url)
    decreases ns, 0
  {
    if ns != [] {
      var updated := UpdateAll(ns, matches, SetUrl(url));
      assert updated[0] == Update(ns[0], matches, SetUrl(url));
      assert updated[1..] == UpdateAll(ns[1..], matches, SetUrl(url));
      SetUrlRestamps(ns[0], matches, url);
      SetUrlRestampsAll(ns[1..], matches, url);
      EntriesConcat(Flatten(updated[0]), FlattenAll(updated[1..]));
      EntriesConcat(Flatten(ns[0]), FlattenAll(ns[1..]));
    }
  }

  /** After setting the `Url` of the matching nodes, every matching node of
      the result carries that `Url`. */
  lemma SetUrlReachesEveryMatch(n: TrieNode, matches: string -> bool, url: string)
    ensures forall x | x in Flatten(Update(n, matches, SetUrl(url))) && matches(x.pageId) :: x.url == Some(url)
  {
    var after := Flatten(Update(n, matches, SetUrl(url)));
    SetUrlRestamps(n, matches, url);
    forall x | x in after && matches(x.pageId)
      ensures x.url == Some(url)
    {
      var i :| 0 <= i < |after| && after[i] == x;
      assert Entries(after)[i] == EntryOf(x);
    }
  }

  /** `k` copies of one entry. */
  function Copies(e: Entry, k: nat): multiset<Entry> {
    multiset{}[e := k]
  }

  lemma CopiesAdd(e: Entry, a: nat, b: nat)
    ensures Copies(e, a) + Copies(e, b) == Copies(e, a + b)
  {
    assert forall x :: (Copies(e, a) + Copies(e, b))[x] == Copies(e, a + b)[x];
  }

  /** The entries of a concatenation, counted as a bag. */
  lemma EntryBagConcat(a: seq<TrieNode>, b: seq<TrieNode>)
    ensures multiset(Entries(a + b)) == multiset(Entries(a)) + multiset(Entries(b))
  {
    EntriesConcat(a, b);
  }

  /** Adding a leaf under every matching node adds one copy of the leaf's
      entry per match and changes no other node's entry. */
  lemma {:induction false} AddChildEntries(n: TrieNode, matches: string -> bool, child: TrieNode)
    requires child.children == []
    ensures multiset(Entries(Flatten(Update(n, matches, AddChild(child)))))
         == multiset(Entries(Flatten(n))) + Copies(EntryOf(child), CountMatches(Flatten(n), matches))
    decreases n, 1
  {
    var kids := UpdateAll(n.children, matches, AddChild(child));
    var r := Update(n, matches, AddChild(child));
    AddChildEntriesAll(n.children, matches, child);
    CountMatchesConcat([n], FlattenAll(n.children), matches);
    EntryBagConcat([n], FlattenAll(n.children));
    assert Entries([r]) == Entries([n]);
    if matches(n.pageId) {
      AddChildEntriesHere(n, matches, child, kids, r);
    } else {
      assert r.children == kids;
      EntryBagConcat([r], FlattenAll(kids));
    }
  }

  /** The step of `AddChildEntries` at a matching node. */
  lemma AddChildEntriesHere(n: TrieNode, matches: string -> bool, child: TrieNode, kids: seq<TrieNode>, r: TrieNode)
    requires child.children == [] && matches(n.pageId)
    requires kids == UpdateAll(n.children, matches, AddChild(child))
    requires r == n.(children := kids + [child])
    requires multiset(Entries(FlattenAll(kids)))
          == multiset(Entries(FlattenAll(n.children))) + Copies(EntryOf(child), CountMatches(FlattenAll(n.children), matches))
    ensures multiset(Entries(Flatten(r)))
         == multiset(Entries(Flatten(n))) + Copies(EntryOf(child), 1 + CountMatches(FlattenAll(n.children), matches))
  {
    var e := EntryOf(child);
    var below := CountMatches(FlattenAll(n.children), matches);
    FlattenWithLastChild(r, kids, child);
    assert multiset(Entries([r])) == multiset(Entries([n])) by {
      assert Entries([r]) == Entries([n]);
    }
    EntryBagConcat([n], FlattenAll(n.children));
    BagShift(multiset(Entries([n])), multiset(Entries(FlattenAll(n.children))), e, below);
  }

  /** The pre-order entries of a node whose last child is a leaf. */
  lemma FlattenWithLastChild(r: TrieNode, kids: seq<TrieNode>, child: TrieNode)
    requires child.children == [] && r.children == kids + [child]
    ensures multiset(Entries(Flatten(r)))
         == multiset(Entries([r])) + (multiset(Entries(FlattenAll(kids))) + Copies(EntryOf(child), 1))
  {
    var fk := FlattenAll(kids);
    FlattenAllConcat(kids, [child]);
    assert FlattenAll([child]) == [child];
    assert Flatten(r) == [r] + (fk + [child]);
    assert multiset(Entries([child])) == Copies(EntryOf(child), 1);
    EntryBagConcat(fk, [child]);
    EntryBagConcat([r], fk + [child]);
  }

  lemma BagShift(top: multiset<Entry>, rest: multiset<Entry>, e: Entry, below: nat)
    ensures top + ((rest + Copies(e, below)) + Copies(e, 1)) == (top + rest) + Copies(e, 1 + below)
  {
    CopiesAdd(e, below, 1);
  }

  lemma {:induction false} AddChildEntriesAll(ns: seq<TrieNode>, matches: string -> bool, child: TrieNode)
    requires child.children == []
    ensures multiset(Entries(FlattenAll(UpdateAll(ns, matches, AddChild(child)))))
         == multiset(Entries(FlattenAll(ns))) + Copies(EntryOf(child), CountMatches(FlattenAll(ns), matches))
    decreases ns, 0
  {
    if ns != [] {
      var updated := UpdateAll(ns, matches, AddChild(child));
      assert updated[0] == Update(ns[0], matches, AddChild(child));
      assert updated[1..] == UpdateAll(ns[1..], matches, AddChild(child));
      AddChildEntries(ns[0], matches, child);
      AddChildEntriesAll(ns[1..], matches, child);
      EntryBagConcat(Flatten(updated[0]), FlattenAll(updated[1..]));
      EntryBagConcat(Flatten(ns[0]), FlattenAll(ns[1..]));
      CountMatchesConcat(Flatten(ns[0]), FlattenAll(ns[1..]), matches);
      CopiesAdd(EntryOf(child), CountMatches(Flatten(ns[0]), matches), CountMatches(FlattenAll(ns[1..]), matches));
    }
  }

  lemma {:induction false} UpdateAllConcat(a: seq<TrieNode>, b: seq<TrieNode>, matches: string -> bool, f: TrieNode -> TrieNode)
    ensures UpdateAll(a + b, matches, f) == UpdateAll(a, matches, f) + UpdateAll(b, matches, f)
  {
    if a == [] {
      assert a + b == b;
    } else {
      assert (a + b)[1..] == a[1..] + b;
      UpdateAllConcat(a[1..], b, matches, f);
    }
  }

  /** Attaching a child under the matching nodes and then removing the last
      child of the matching nodes gives back the original tree: the attach
      appends to those nodes and moves and changes nothing else. */
  lemma {:induction false} AddChildRoundTrip(n: TrieNode, matches: string -> bool, child: TrieNode)
    ensures Update(Update(n, matches, AddChild(child)), matches, DropLastChild()) == n
    decreases n, 1
  {
    AddChildRoundTripAll(n.children, matches, child);
    if matches(n.pageId) {
      var kids := UpdateAll(n.children, matches, AddChild(child));
      UpdateAllConcat(kids, [child], matches, DropLastChild());
      var dropped := UpdateAll(kids + [child], matches, DropLastChild());
      assert dropped[..|dropped| - 1] == UpdateAll(kids, matches, DropLastChild());
    }
  }

  lemma {:induction false} AddChildRoundTripAll(ns: seq<TrieNode>, matches: string -> bool, child: TrieNode)
    ensures UpdateAll(UpdateAll(ns, matches, AddChild(child)), matches, DropLastChild()) == ns
    decreases ns, 0
  {
    if ns != [] {
      var added := UpdateAll(ns, matches, AddChild(child));
      assert added[0] == Update(ns[0], matches, AddChild(child));
      assert added[1..] == UpdateAll(ns[1..], matches, AddChild(child));
      AddChildRoundTrip(ns[0], matches, child);
      AddChildRoundTripAll(ns[1..], matches, child);
      assert ns == [ns[0]] + ns[1..];
    }
  }

  /** `child` may hang under `parent`: it records the parent's `PageId` and
      its `Url` extends the parent's `Url` with a trailing '/'. */
  predicate FitsUnder(parent: TrieNode, child: TrieNode) {
    && child.parentId == Some(parent.pageId)
    && child.url.Some?
    && AppendTrailingSlash(parent.url.GetOr("")) <= child.url.value
  }

  /** Every parent/child pair of the tree fits: each child's `ParentId` is
      its parent's `PageId`, and each child's `Url` starts with its parent's
      `Url` plus a trailing '/', as the attach branches of the handlers set
      them. */
  predicate Consistent(n: TrieNode)
    decreases n
  {
    forall i | 0 <= i < |n.children| :: FitsUnder(n, n.children[i]) && Consistent(n.children[i])
  }

  lemma {:induction false} UpdateAllAt(ns: seq<TrieNode>, matches: string -> bool, f: TrieNode -> TrieNode, i: nat)
    requires i < |ns|
    ensures UpdateAll(ns, matches, f)[i] == Update(ns[i], matches, f)
  {
    if i > 0 {
      UpdateAllAt(ns[1..], matches, f, i - 1);
    }
  }

  /** Attaching a leaf that fits under every node it is attached to keeps a
      consistent tree consistent. */
  lemma {:induction false} AddChildKeepsConsistent(n: TrieNode, matches: string -> bool, child: TrieNode)
    requires Consistent(n) && child.children == []
    requires forall x | x in Flatten(n) && matches(x.pageId) :: FitsUnder(x, child)
    ensures Consistent(Update(n, matches, AddChild(child)))
    decreases n
  {
    var kids := UpdateAll(n.children, matches, AddChild(child));
    var r := Update(n, matches, AddChild(child));
    forall i | 0 <= i < |kids|
      ensures FitsUnder(r, kids[i]) && Consistent(kids[i])
    {
      UpdateAllAt(n.children, matches, AddChild(child), i);
      forall x | x in Flatten(n.children[i]) && matches(x.pageId)
        ensures FitsUnder(x, child)
      {
        FlattenAllContains(n.children, i, x);
      }
      AddChildKeepsConsistent(n.children[i], matches, child);
      assert EntryOf(kids[i]) == EntryOf(n.children[i]);
    }
    if matches(n.pageId) {
      assert r.children == kids + [child];
      assert FitsUnder(n, child);
    }
  }
}
